=== FILE: README.md ===
# Thredded user-topic decorator, modelled in Dafny

Thredded is a Rails forum engine. Its `UserTopicDecorator` wraps one topic for
one viewing user, who may be a guest (`nil`). It works out:

- whether the user has read the topic (`read?`), by comparing the user's
  read record (`user_topic_read`) with the topic's post count;
- how far the user got (`farthest_page`, `farthest_post`), with defaults for a
  guest;
- the topic's CSS class, `read` or `unread` followed by `locked` and `sticky`;
- the link to the topic's author, through the configurable `Thredded.user_path`;
- `decorate_all`, which decorates a list of topics for one user.

The model is pure, like the decorator: every accessor is a value computed
from the bound user, topic and read record.

- `wrappers.dfy`: `Option`, standing for Ruby's `nil`.
- `forum.dfy` (module `Forum`): users, topics, posts and read records. The
  record store is a map keyed by (user id, topic id). `Find` looks a record
  up; for a guest the store is never consulted. Pages are numbered from 1
  (`Page`). An unsaved post (`Unsaved`)
  is the non-persisted post handed out when there is no record.
- `markup.dfy` (module `Markup`): joining class names with single spaces and
  splitting a class attribute back into names; building an anchor and reading
  its href back.
- `user_topic_decorator.dfy` (module `UserTopicDecorator`): the decorator
  and the properties the source asserts, generalised to all inputs.
- `user_topic_decorator_examples.dfy`: each asserted example, stated for its
  concrete user, topic and record.

The model follows the decorator's RSpec file,
spec/decorators/thredded/user_topic_decorator_spec.rb; the Ruby
implementation is not modelled. Where the examples leave a case open, the
model makes these choices:

- A signed-in user's topic is read when the recorded count is at least the
  topic's post count (`>=`). The examples show only "equal gives read" and
  "smaller gives unread". A count larger than the post count, which happens
  once posts are deleted, is also read.
- A signed-in user with no record is treated as having read nothing, as on
  page 1 with an unsaved post. So only a topic with zero posts is read for
  such a user.
- A guest never sees a topic as read, whatever its post count.
- The CSS class is the class names joined by single spaces, with nothing after
  the read state when the topic is neither locked nor sticky.
- `user_link` links to the topic's author. In both examples the author is the
  viewing user, so they do not tell the two apart. The profile-path function
  receives the author's name, since the Ruby lambda interpolates the user,
  which renders as its name.
- `decorate_all` keeps the input order.

## Model

| member | source | states |
|---|---|---|
| `Forum.Find` | spec/decorators/thredded/user_topic_decorator_spec.rb:32-36 | the record of a (user, topic) pair is found exactly when the store holds one for that user's id and that topic's id; a guest never has one |
| `UserTopicDecorator.New` | spec/decorators/thredded/user_topic_decorator_spec.rb:37 | the decorator binds the given user and topic together with that user's record for that topic, as `Find` returns it; a guest is bound with no record |
| `UserTopicDecorator.DecorateAll` | spec/decorators/thredded/user_topic_decorator_spec.rb:18-25 | one decorated topic per input topic, same length and order, each the decorator `new` would build for that topic and the same user |
| `UserTopicDecorator.ReadStatus` | spec/decorators/thredded/user_topic_decorator_spec.rb:28-110 | the consulted record is a signed-in user's own when there is one; otherwise it is the default, with nothing read, page 1 and an unsaved post |
| `UserTopicDecorator.IsRead` | spec/decorators/thredded/user_topic_decorator_spec.rb:28-62 | a guest never reads a topic; with a record, read exactly when the recorded count reaches the post count; with no record, read only for a topic without posts (a modelling choice) |
| `UserTopicDecorator.FarthestPage` | spec/decorators/thredded/user_topic_decorator_spec.rb:64-86 | the recorded page when a signed-in user has a record, otherwise page 1 |
| `UserTopicDecorator.FarthestPost` | spec/decorators/thredded/user_topic_decorator_spec.rb:88-110 | the recorded post when a signed-in user has a record, otherwise an unsaved post distinct from every stored post |
| `UserTopicDecorator.ReadIffCaughtUp` | spec/decorators/thredded/user_topic_decorator_spec.rb:28-53 | for a signed-in user with a stored record for the topic: read exactly when that record's count reaches the topic's post count; equal counts give read, a smaller count gives unread |
| `UserTopicDecorator.GuestDefaults` | spec/decorators/thredded/user_topic_decorator_spec.rb:55-110 | for a guest, whatever the store holds: never read, farthest page 1, and a farthest post that is not persisted and differs from every stored post |
| `UserTopicDecorator.RecordedPosition` | spec/decorators/thredded/user_topic_decorator_spec.rb:64-102 | for a signed-in user with a stored record for the topic: farthest page and farthest post are that record's |
| `UserTopicDecorator.NoRecordDefaults` | spec/decorators/thredded/user_topic_decorator_spec.rb:28-62 | modelling choice, not asserted by the examples, which always create the record: a signed-in user with nothing stored for the topic gets page 1, an unsaved post, and read only when the topic has no posts |
| `UserTopicDecorator.ReadClass` | spec/decorators/thredded/user_topic_decorator_spec.rb:113-138 | the read-state class is a valid class name, and is "read" exactly when the topic is read and "unread" exactly when it is not |
| `UserTopicDecorator.TopicClasses` | spec/decorators/thredded/user_topic_decorator_spec.rb:115 | the topic's own classes contain "locked" exactly when it is locked and "sticky" exactly when it is sticky, "locked" first |
| `UserTopicDecorator.ClassNames` | spec/decorators/thredded/user_topic_decorator_spec.rb:113-138 | the read state comes first, followed by the topic's own classes; every entry is a valid class name |
| `UserTopicDecorator.CssClass` | spec/decorators/thredded/user_topic_decorator_spec.rb:113-138 | the class string begins with the read-state class |
| `UserTopicDecorator.CssClassList` | spec/decorators/thredded/user_topic_decorator_spec.rb:113-138 | split at spaces, the class string gives back exactly the class names in order, and nothing but the read state and the set flags |
| `UserTopicDecorator.CssClassLockedSticky` | spec/decorators/thredded/user_topic_decorator_spec.rb:113-138 | a locked, sticky topic's class is exactly "read locked sticky" when read and "unread locked sticky" when not |
| `Markup.SplitJoin` | spec/decorators/thredded/user_topic_decorator_spec.rb:124 | names without spaces, joined with single spaces, split back into the same names |
| `UserTopicDecorator.UserLink` | spec/decorators/thredded/user_topic_decorator_spec.rb:141-165 | a topic without an author gets exactly `<a href="#">?</a>`; an author's link opens a single-quoted anchor and ends with the author's name followed by `</a>` |
| `Markup.Anchor` | spec/decorators/thredded/user_topic_decorator_spec.rb:156 | the anchor is exactly `<a href='`, the href, `'>`, the link text and `</a>`, in that order |
| `Markup.HrefOfAnchor` | spec/decorators/thredded/user_topic_decorator_spec.rb:156 | the href of a single-quoted anchor reads back as the path written into it |
| `Markup.TextOfAnchor` | spec/decorators/thredded/user_topic_decorator_spec.rb:156 | the link text of a single-quoted anchor reads back as the text written into it, when the href holds no single quote |
| `UserTopicDecorator.UserLinkHref` | spec/decorators/thredded/user_topic_decorator_spec.rb:146-165 | an author's link points at the configured profile path of the author's name and its link text is the author's name; the placeholder has no such href, and no author's link equals it |
| `UserTopicDecoratorExamples.DecoratesAllTopics` | spec/decorators/thredded/user_topic_decorator_spec.rb:18-25 | decorating two different topics gives two items, wrapping those topics in order |
| `UserTopicDecoratorExamples.ReadWhenCountsMatch` | spec/decorators/thredded/user_topic_decorator_spec.rb:28-53 | 2 of 2 posts read is read; 2 of 4 is unread |
| `UserTopicDecoratorExamples.GuestScenario` | spec/decorators/thredded/user_topic_decorator_spec.rb:55-110 | a guest on a two-post topic: unread, page 1, unsaved farthest post |
| `UserTopicDecoratorExamples.FarthestPositionScenario` | spec/decorators/thredded/user_topic_decorator_spec.rb:64-102 | a record on page 4 at the topic's last post reports page 4 and that post |
| `UserTopicDecoratorExamples.CssClassScenario` | spec/decorators/thredded/user_topic_decorator_spec.rb:113-138 | locked, sticky, two posts: 2 read gives "read locked sticky", 1 read gives "unread locked sticky" |
| `UserTopicDecoratorExamples.JoelAnchor` | spec/decorators/thredded/user_topic_decorator_spec.rb:156 | the anchor built from the path `/i_am/joel` and the text `joel` is exactly `<a href='/i_am/joel'>joel</a>` |
| `UserTopicDecoratorExamples.UserLinkScenario` | spec/decorators/thredded/user_topic_decorator_spec.rb:141-165 | with the path `/i_am/<name>`, Joel's topic links as `<a href='/i_am/joel'>joel</a>`; a topic without an author gives `<a href="#">?</a>` |

## Left out

- The forwarded presentation helpers `created_at_timeago`, `updated_at_timeago`, `gravatar_url`, `last_user_link` and `original` (lines 10-14) are not modelled. They need clock-relative time formatting, Gravatar hashing and method forwarding to the wrapped topic.
- The database is not modelled: the factories, persistence and the lookup query. The store is a map passed in.
- `Thredded.user_path` is a parameter of `UserLink`, not process-wide mutable configuration. An unconfigured path (`nil`) is not modelled.
- HTML escaping of names and paths is not modelled; nothing asserts it. `UserLinkHref` therefore assumes the path holds no single quote.
- A read record whose farthest post was never set (`nil` in Ruby) is modelled with the same `Unsaved` value as the unsaved post handed out when there is no record; the model does not tell the two apart.
- Updating a read record ("mark as read") belongs to another component and is not modelled.

=== FILE: forum.dfy ===
/**
 * The forum entities the decorator reads: users, topics, posts and the per-user
 * read-tracking records, together with the lookup of a record in its store.
 */
module Forum {
  import opened Wrappers

  /** A registered user: an identity and the display name the user is shown by. */
  datatype User = User(id: nat, name: string)

  /** A post saved in the database. */
  datatype Post = Post(id: nat)

  /**
   * A reference to a post: a saved one, or an unsaved in-memory post. `Unsaved`
   * is what the decorator hands out when nothing has been read, and it also
   * stands for a record whose farthest post was never set; the model does not
   * tell these two apart.
   */
  datatype PostRef = Stored(post: Post) | Unsaved

  /** Whether the post referred to has been saved. */
  predicate Persisted(p: PostRef) {
    p.Stored?
  }

  /**
   * A topic: its number of posts, its two moderation flags and its author,
   * which may be missing.
   */
  datatype Topic = Topic(id: nat, postsCount: nat, locked: bool, sticky: bool, author: Option<User>)

  /**
   * What one user has read of one topic: how many posts, the farthest page
   * reached and the farthest post reached.
   */
  datatype ReadRecord = ReadRecord(postsCount: nat, page: Page, farthestPost: PostRef)

  /** Pages are numbered from 1. */
  type Page = p: nat | p >= 1 witness 1

  /** Read records are kept per (user, topic) pair. */
  datatype ReadKey = ReadKey(userId: nat, topicId: nat)

  type ReadStore = map<ReadKey, ReadRecord>

  /** The page a reader starts on. */
  const FIRST_PAGE: Page := 1

  /**
   * The record that stands in, in memory only, when there is none: nothing
   * read, the first page, an unsaved post.
   */
  const NULL_READ: ReadRecord := ReadRecord(0, FIRST_PAGE, Unsaved)

  /**
   * The read record of `user` for `topic`, if the store has one. A guest has
   * no record and the store is not consulted for one.
   */
  function Find(store: ReadStore, user: Option<User>, topic: Topic): (r: Option<ReadRecord>)
    ensures user.None? ==> r.None?
    ensures user.Some? ==> (r.Some? <==> ReadKey(user.value.id, topic.id) in store)
    ensures r.Some? ==> r.value == store[ReadKey(user.value.id, topic.id)]
  {
    match user
    case None => None
    case Some(u) =>
      var key := ReadKey(u.id, topic.id);
      if key in store then Some(store[key]) else None
  }
}

=== FILE: markup.dfy ===
/**
 * The two pieces of HTML the decorator produces: a class attribute value (a
 * list of class names separated by single spaces) and an anchor element.
 */
module Markup {
  import opened Wrappers

  const SPACE: char := ' '
  const QUOTE: char := '\''

  /** A class name that survives the space-separated class list: non-empty, no space. */
  predicate IsClassName(t: string) {
    |t| > 0 && SPACE !in t
  }

  /** The class names joined with single spaces, as Ruby's `join(' ')` does. */
  function Join(names: seq<string>): (r: string)
    ensures |names| > 0 ==> names[0] <= r
  {
    if |names| == 0 then ""
    else if |names| == 1 then names[0]
    else names[0] + [SPACE] + Join(names[1..])
  }

  /**
   * How a class attribute is read back: split at every space, keeping the
   * (possibly empty) pieces between them.
   */
  function Split(s: string): (r: seq<string>)
    ensures |r| > 0
  {
    if s == [] then [""]
    else
      var rest := Split(s[1..]);
      if s[0] == SPACE then [""] + rest
      else [[s[0]] + rest[0]] + rest[1..]
  }

  lemma {:induction false} SplitName(t: string)
    requires SPACE !in t
    ensures Split(t) == [t]
  {
    if t != [] {
      SplitName(t[1..]);
      assert [t[0]] + t[1..] == t;
    }
  }

  lemma {:induction false} SplitAfterName(t: string, u: string)
    requires SPACE !in t
    ensures Split(t + [SPACE] + u) == [t] + Split(u)
  {
    var s := t + [SPACE] + u;
    if t == [] {
      assert s[1..] == u;
    } else {
      assert s[1..] == t[1..] + [SPACE] + u;
      SplitAfterName(t[1..], u);
      assert [t[0]] + t[1..] == t;
    }
  }

  /** Splitting a joined class list gives back exactly the class names, in order. */
  lemma {:induction false} SplitJoin(names: seq<string>)
    requires |names| > 0
    requires forall i :: 0 <= i < |names| ==> IsClassName(names[i])
    ensures Split(Join(names)) == names
  {
    if |names| == 1 {
      SplitName(names[0]);
    } else {
      SplitAfterName(names[0], Join(names[1..]));
      SplitJoin(names[1..]);
    }
  }

  /** The opening of an anchor whose href is written in single quotes. */
  const HREF_OPEN: string := "<a href='"

  /** What closes the single-quoted href and the opening tag. */
  const HREF_CLOSE: string := "'>"

  /** The end of an anchor element. */
  const CLOSE: string := "</a>"

  /** An anchor element with a single-quoted href and the given link text. */
  function Anchor(href: string, text: string): (r: string)
    ensures HREF_OPEN <= r
    ensures |r| == |HREF_OPEN| + |href| + |text| + 6
    ensures r[|HREF_OPEN|..|HREF_OPEN| + |href|] == href
    ensures r[|HREF_OPEN| + |href|..|HREF_OPEN| + |href| + 2] == HREF_CLOSE
    ensures r[|HREF_OPEN| + |href| + 2..|r| - 4] == text
    ensures r[|r| - 4..] == CLOSE
  {
    HREF_OPEN + href + HREF_CLOSE + text + CLOSE
  }

  /** The text up to the first single quote. */
  function UpToQuote(s: string): (r: string)
    ensures r <= s && QUOTE !in r
  {
    if s == [] || s[0] == QUOTE then [] else [s[0]] + UpToQuote(s[1..])
  }

  lemma {:induction false} UpToQuoteOf(h: string, rest: string)
    requires QUOTE !in h
    ensures UpToQuote(h + [QUOTE] + rest) == h
  {
    if h != [] {
      assert (h + [QUOTE] + rest)[1..] == h[1..] + [QUOTE] + rest;
      UpToQuoteOf(h[1..], rest);
      assert [h[0]] + h[1..] == h;
    }
  }

  /** How a browser reads the href of markup that opens a single-quoted anchor. */
  function Href(markup: string): (r: Option<string>)
    ensures r.Some? <==> HREF_OPEN <= markup
  {
    if HREF_OPEN <= markup then Some(UpToQuote(markup[|HREF_OPEN|..])) else None
  }

  /** The href of an anchor is read back as written, provided it holds no single quote. */
  lemma HrefOfAnchor(href: string, text: string)
    requires QUOTE !in href
    ensures Href(Anchor(href, text)) == Some(href)
  {
    var a := Anchor(href, text);
    assert a[|HREF_OPEN|..] == href + [QUOTE] + (">" + text + "</a>");
    UpToQuoteOf(href, ">" + text + "</a>");
  }

  /**
   * How a browser reads the link text of markup that is a single-quoted
   * anchor: what lies between the `'>` closing the href and the final `</a>`.
   */
  function LinkText(markup: string): (r: Option<string>)
    ensures r.Some? ==> HREF_OPEN <= markup && CLOSE <= markup[|markup| - 4..]
    ensures r.Some? ==> |r.value| + 6 <= |markup| &&
                        markup[|markup| - |r.value| - 6..] == HREF_CLOSE + r.value + CLOSE
  {
    if HREF_OPEN <= markup && |markup| >= 4 && markup[|markup| - 4..] == CLOSE then
      var start := |HREF_OPEN| + |UpToQuote(markup[|HREF_OPEN|..])| + 2;
      if start <= |markup| - 4 && markup[start - 2..start] == HREF_CLOSE
      then Some(markup[start..|markup| - 4])
      else None
    else None
  }

  /** The text of an anchor is read back as written, provided its href holds no single quote. */
  lemma TextOfAnchor(href: string, text: string)
    requires QUOTE !in href
    ensures LinkText(Anchor(href, text)) == Some(text)
  {
    var a := Anchor(href, text);
    HrefOfAnchor(href, text);
    assert UpToQuote(a[|HREF_OPEN|..]) == href;
  }
}

=== FILE: user_topic_decorator.dfy ===
/**
 * The per-user topic decorator: one topic seen by one user (who may be a
 * guest), with the read state, reading position, CSS class and author link
 * derived from the topic and the user's read record.
 */
module UserTopicDecorator {
  import opened Wrappers
  import opened Forum
  import Markup

  /**
   * A topic bound to the user viewing it and to that user's read record for
   * it, as found when the decorator is built.
   */
  datatype Decorated = Decorated(user: Option<User>, topic: Topic, record: Option<ReadRecord>)

  /**
   * Binds `user` and `topic` together with the user's own read record for that
   * topic; the record is looked up only for a signed-in user.
   */
  function New(store: ReadStore, user: Option<User>, topic: Topic): (d: Decorated)
    ensures d.user == user && d.topic == topic
    ensures d.record == Find(store, user, topic)
    ensures user.None? ==> d.record.None?
  {
    Decorated(user, topic, Find(store, user, topic))
  }

  /** Decorates every topic of a list for the same user, keeping the list's length and order. */
  function DecorateAll(store: ReadStore, user: Option<User>, topics: seq<Topic>): (r: seq<Decorated>)
    ensures |r| == |topics|
    ensures forall i :: 0 <= i < |topics| ==> r[i] == New(store, user, topics[i])
  {
    if topics == [] then []
    else [New(store, user, topics[0])] + DecorateAll(store, user, topics[1..])
  }

  /**
   * The record the accessors consult: a signed-in user's own, or else the
   * in-memory default that records nothing read.
   */
  function ReadStatus(d: Decorated): (r: ReadRecord)
    ensures d.user.None? ==> r == NULL_READ
    ensures d.user.Some? && d.record.Some? ==> r == d.record.value
    ensures d.user.Some? && d.record.None? ==> r.postsCount == 0 && r.page == FIRST_PAGE && !Persisted(r.farthestPost)
  {
    if d.user.Some? && d.record.Some? then d.record.value else NULL_READ
  }

  /**
   * `read?`: a guest never sees a topic as read; a signed-in user has read it
   * once the record counts at least as many posts as the topic has.
   */
  function IsRead(d: Decorated): (r: bool)
    ensures d.user.None? ==> !r
    ensures d.user.Some? && d.record.Some? ==> (r <==> d.record.value.postsCount >= d.topic.postsCount)
    ensures d.user.Some? && d.record.None? ==> (r <==> d.topic.postsCount == 0)
  {
    d.user.Some? && ReadStatus(d).postsCount >= d.topic.postsCount
  }

  /** `farthest_page`: the recorded page, or the first page when nothing is recorded. */
  function FarthestPage(d: Decorated): (r: Page)
    ensures d.user.Some? && d.record.Some? ==> r == d.record.value.page
    ensures (d.user.None? || d.record.None?) ==> r == FIRST_PAGE
  {
    ReadStatus(d).page
  }

  /**
   * `farthest_post`: the recorded post, or, when nothing is recorded, an
   * unsaved post distinct from every stored one.
   */
  function FarthestPost(d: Decorated): (r: PostRef)
    // "not persisted", and spelled out as "distinct from every stored post"
    ensures d.user.Some? && d.record.Some? ==> r == d.record.value.farthestPost
    ensures (d.user.None? || d.record.None?) ==> !Persisted(r) && forall p: Post :: r != Stored(p)
  {
    ReadStatus(d).farthestPost
  }

  /** For a guest, whatever the store holds: never read, page 1, no saved post. */
  lemma GuestDefaults(store: ReadStore, topic: Topic)
    ensures !IsRead(New(store, None, topic))
    ensures FarthestPage(New(store, None, topic)) == FIRST_PAGE
    ensures !Persisted(FarthestPost(New(store, None, topic)))
    // the same fact spelled out: distinct from every stored post
    ensures forall p: Post :: FarthestPost(New(store, None, topic)) != Stored(p)
  {
  }

  /** A signed-in user's read state follows that user's stored count for that topic. */
  lemma ReadIffCaughtUp(store: ReadStore, user: User, topic: Topic)
    requires ReadKey(user.id, topic.id) in store
    ensures IsRead(New(store, Some(user), topic)) <==> store[ReadKey(user.id, topic.id)].postsCount >= topic.postsCount
    ensures store[ReadKey(user.id, topic.id)].postsCount == topic.postsCount ==> IsRead(New(store, Some(user), topic))
    ensures store[ReadKey(user.id, topic.id)].postsCount < topic.postsCount ==> !IsRead(New(store, Some(user), topic))
  {
  }

  /** A signed-in user's position is the one stored for that user and that topic. */
  lemma RecordedPosition(store: ReadStore, user: User, topic: Topic)
    requires ReadKey(user.id, topic.id) in store
    ensures FarthestPage(New(store, Some(user), topic)) == store[ReadKey(user.id, topic.id)].page
    ensures FarthestPost(New(store, Some(user), topic)) == store[ReadKey(user.id, topic.id)].farthestPost
  {
  }

  /**
   * A signed-in user with nothing stored for the topic has read nothing: only
   * a topic without posts counts as read, and the position is the default one.
   */
  lemma NoRecordDefaults(store: ReadStore, user: User, topic: Topic)
    requires ReadKey(user.id, topic.id) !in store
    ensures IsRead(New(store, Some(user), topic)) <==> topic.postsCount == 0
    ensures FarthestPage(New(store, Some(user), topic)) == FIRST_PAGE
    ensures !Persisted(FarthestPost(New(store, Some(user), topic)))
  {
  }

  /** The read-state class: "read" or "unread". */
  function ReadClass(d: Decorated): (r: string)
    ensures Markup.IsClassName(r)
    ensures r == "read" <==> IsRead(d)
    ensures r == "unread" <==> !IsRead(d)
  {
    if IsRead(d) then "read" else "unread"
  }

  /** The classes a topic carries of its own: "locked" and "sticky", each when set, in that order. */
  function TopicClasses(t: Topic): (r: seq<string>)
    ensures "locked" in r <==> t.locked
    ensures "sticky" in r <==> t.sticky
    ensures t.locked ==> r[0] == "locked"
    ensures t.sticky ==> r[|r| - 1] == "sticky"
    ensures |r| == (if t.locked then 1 else 0) + (if t.sticky then 1 else 0)
  {
    (if t.locked then ["locked"] else []) + (if t.sticky then ["sticky"] else [])
  }

  /** The class names of the decorated topic: the read state first, then the topic's own. */
  function ClassNames(d: Decorated): (r: seq<string>)
    ensures |r| > 0 && r[0] == ReadClass(d)
    ensures r[1..] == TopicClasses(d.topic)
    ensures forall i :: 0 <= i < |r| ==> Markup.IsClassName(r[i])
    ensures ("read" in r <==> IsRead(d)) && ("unread" in r <==> !IsRead(d))
    ensures ("locked" in r <==> d.topic.locked) && ("sticky" in r <==> d.topic.sticky)
  {
    [ReadClass(d)] + TopicClasses(d.topic)
  }

  /** The class attribute value of the decorated topic. */
  function CssClass(d: Decorated): (r: string)
    ensures ReadClass(d) <= r
  {
    Markup.Join(ClassNames(d))
  }

  /** Read as a class list, the CSS class holds exactly the class names, in order. */
  lemma CssClassList(d: Decorated)
    ensures Markup.Split(CssClass(d)) == ClassNames(d)
    ensures forall c :: c in Markup.Split(CssClass(d)) ==>
              c == ReadClass(d) || (c == "locked" && d.topic.locked) || (c == "sticky" && d.topic.sticky)
  {
    Markup.SplitJoin(ClassNames(d));
  }

  /** A locked and sticky topic gets the full class string, the read state first. */
  lemma CssClassLockedSticky(d: Decorated)
    requires d.topic.locked && d.topic.sticky
    ensures IsRead(d) ==> CssClass(d) == "read locked sticky"
    ensures !IsRead(d) ==> CssClass(d) == "unread locked sticky"
  {
    var names := ClassNames(d);
    assert names == [ReadClass(d), "locked", "sticky"];
    assert names[1..][1..] == ["sticky"];
    assert Markup.Join(names[1..]) == "locked sticky";
  }

  /** The anchor shown for a topic without an author. */
  const PLACEHOLDER_LINK: string := "<a href=\"#\">?</a>"

  /**
   * The link to the topic's author: an anchor to the profile path of the
   * author's name, or the placeholder when there is no author.
   */
  function UserLink(d: Decorated, userPath: string -> string): (r: string)
    ensures d.topic.author.None? ==> r == PLACEHOLDER_LINK
    ensures d.topic.author.Some? ==> Markup.HREF_OPEN <= r
    ensures d.topic.author.Some? ==>
              var name := d.topic.author.value.name;
              |r| >= |name| + 4 && r[|r| - |name| - 4..] == name + Markup.CLOSE
  {
    match d.topic.author
    case None => PLACEHOLDER_LINK
    case Some(a) => Markup.Anchor(userPath(a.name), a.name)
  }

  /**
   * The author's link points at the configured profile path, whereas the
   * placeholder carries no single-quoted href; the two can never coincide.
   */
  lemma UserLinkHref(d: Decorated, userPath: string -> string)
    requires d.topic.author.Some? ==> Markup.QUOTE !in userPath(d.topic.author.value.name)
    ensures d.topic.author.Some? ==>
              Markup.Href(UserLink(d, userPath)) == Some(userPath(d.topic.author.value.name))
    ensures d.topic.author.None? ==> Markup.Href(UserLink(d, userPath)) == None
    ensures d.topic.author.Some? ==> Markup.LinkText(UserLink(d, userPath)) == Some(d.topic.author.value.name)
    ensures d.topic.author.Some? ==> UserLink(d, userPath) != PLACEHOLDER_LINK
  {
    match d.topic.author
    case None =>
      assert PLACEHOLDER_LINK[8] != Markup.HREF_OPEN[8];
    case Some(a) =>
      Markup.HrefOfAnchor(userPath(a.name), a.name);
      Markup.TextOfAnchor(userPath(a.name), a.name);
      assert Markup.HREF_OPEN <= UserLink(d, userPath);
      assert PLACEHOLDER_LINK[8] != Markup.HREF_OPEN[8];
  }
}

=== FILE: user_topic_decorator_examples.dfy ===
/**
 * The documented scenarios of the decorator, each stated for the concrete
 * users, topics and read records it describes.
 */
module UserTopicDecoratorExamples {
  import opened Wrappers
  import opened Forum
  import opened UserTopicDecorator
  import Markup

  const JOEL: User := User(1, "joel")

  /** Topic 7, by Joel, with the given number of posts and flags. */
  function TopicOf(postsCount: nat, locked: bool, sticky: bool): (t: Topic)
    ensures t.id == 7
    ensures t.postsCount == postsCount && t.locked == locked && t.sticky == sticky
    ensures t.author == Some(JOEL)
  {
    Topic(7, postsCount, locked, sticky, Some(JOEL))
  }

  /** A store holding Joel's record for topic 7 and nothing else. */
  function StoreWith(record: ReadRecord): (s: ReadStore)
    ensures forall t: Topic :: t.id == 7 ==> Find(s, Some(JOEL), t) == Some(record)
  {
    map[ReadKey(JOEL.id, 7) := record]
  }

  /** `decorate_all` on two different topics gives two decorated topics, in the same order. */
  lemma DecoratesAllTopics(store: ReadStore)
    ensures var first, second := Topic(7, 0, false, false, None), Topic(8, 0, false, false, None);
            var r := DecorateAll(store, Some(JOEL), [first, second]);
            |r| == 2 && r[0].topic == first && r[1].topic == second
  {
  }

  /** Two posts, two read: read. Four posts, two read: unread. */
  lemma ReadWhenCountsMatch()
    ensures IsRead(New(StoreWith(ReadRecord(2, FIRST_PAGE, Unsaved)), Some(JOEL), TopicOf(2, false, false)))
    ensures !IsRead(New(StoreWith(ReadRecord(2, FIRST_PAGE, Unsaved)), Some(JOEL), TopicOf(4, false, false)))
  {
  }

  /** A guest never sees a topic as read, starts on page 1, and has only an unsaved post. */
  lemma GuestScenario(store: ReadStore)
    ensures !IsRead(New(store, None, TopicOf(2, false, false)))
    ensures FarthestPage(New(store, None, TopicOf(2, false, false))) == 1
    ensures !Persisted(FarthestPost(New(store, None, TopicOf(2, false, false))))
  {
    GuestDefaults(store, TopicOf(2, false, false));
  }

  /** Joel's record on page 4 with the topic's last post: both are reported back. */
  lemma FarthestPositionScenario(last: Post)
    ensures FarthestPage(New(StoreWith(ReadRecord(2, 4, Stored(last))), Some(JOEL), TopicOf(2, false, false))) == 4
    ensures FarthestPost(New(StoreWith(ReadRecord(2, 4, Stored(last))), Some(JOEL), TopicOf(2, false, false))) == Stored(last)
  {
  }

  /** A locked, sticky topic with two posts: two read gives "read …", one read gives "unread …". */
  lemma CssClassScenario()
    ensures CssClass(New(StoreWith(ReadRecord(2, 4, Unsaved)), Some(JOEL), TopicOf(2, true, true))) == "read locked sticky"
    ensures CssClass(New(StoreWith(ReadRecord(1, 4, Unsaved)), Some(JOEL), TopicOf(2, true, true))) == "unread locked sticky"
  {
    CssClassLockedSticky(New(StoreWith(ReadRecord(2, 4, Unsaved)), Some(JOEL), TopicOf(2, true, true)));
    CssClassLockedSticky(New(StoreWith(ReadRecord(1, 4, Unsaved)), Some(JOEL), TopicOf(2, true, true)));
  }

  /** The anchor to Joel's profile path, spelled out. */
  lemma JoelAnchor()
    ensures Markup.Anchor("/i_am/joel", "joel") == "<a href='/i_am/joel'>joel</a>"
  {
  }

  /** Joel's topic links to Joel's profile path; a topic without an author links to nowhere. */
  lemma UserLinkScenario(store: ReadStore)
    ensures UserLink(New(store, Some(JOEL), TopicOf(0, false, false)), s => "/i_am/" + s)
              == "<a href='/i_am/joel'>joel</a>"
    ensures UserLink(New(store, None, Topic(7, 0, false, false, None)), s => "/i_am/" + s)
              == "<a href=\"#\">?</a>"
  {
    JoelAnchor();
  }
}

=== FILE: wrappers.dfy ===
/** The optional value used wherever the forum passes `nil`: an absent user, a missing read record. */
module Wrappers {

  datatype Option<+T> = None | Some(value: T)
}
